=== FILE: README.md ===
# ssi: a model of the simple shell interpreter's job control

`ssi.c` is a small interactive shell. It reads a line and splits it into words.
It then handles `exit`, `cd`, `bg` and `bglist` itself, and runs anything else
as a foreground process. At the end of every iteration it polls the background
jobs it launched and reports those that have terminated.

This project models the sequential logic inside that loop. The system calls
become inputs.

- `wrappers.dfy` (`Wrappers`): `Option`, used for a NULL `getenv` result and for an absent argument.
- `cstrings.dfy` (`CStrings`): NUL-terminated buffers.
  - `CString` is what `%s` prints.
  - `StoreLabel` is the `strncpy` into the 1024-byte `command` field followed by the explicit terminator.
- `jobs.dfy` (`Jobs`): the background-job registry, a sequence of `Job(pid, command)` records in insertion order.
  - `AddJob` is `add_bg_process`.
  - `Survivors` and `Reported` are the reference definition of one reaping pass.
  - `Reap` is `bg_process_status` written as the C loop. It runs over fixed-size storage, a sequence updated one slot at a time. It shifts the tail left in place and steps the index back. It is proved to compute exactly the reference definition.
  - `ListJobs` is the `bglist` loop.
- `tokenizer.dfy` (`Tokenizer`): how a line becomes tokens. `LineOf` is the newline cut with `strcspn`. `Split` and `Tokenize` are the `strtok` loop on `" \n"`.
- `changedir.dfy` (`ChangeDir`): `CdTarget` is the path the `cd` branch hands to `chdir`, or the "HOME not set" error.
- `shell.dfy` (`Shell`): the loop itself.
  - `Classify` chooses the branch of the if-chain.
  - `Dispatch` runs that branch.
  - `Iterate` is one whole loop iteration: tokenise, dispatch, then reap.
  - `Session` is the loop run over many lines.

How the system calls are modelled:

- **`fork`**: its return value is the input `Env.fork`.
  - A positive value is the parent's success.
  - A negative value is a failure.
  - Zero means this process is the child. Its iteration ends in `ChildExec(argv)`, because `execvp` replaces the image or the child exits.
- **`waitpid(pid, NULL, WNOHANG)`**: replaced by an oracle, the set `Env.done` of pids for which it returns a positive value during that pass.
- **`getenv("HOME")`**: the input `Env.home`.
- **`chdir` and `wait(NULL)`**: these appear as the events `Chdir(path)` and `WaitChild`.
- **Output**: each printed or error line is an event carrying its fields, not the formatted text.

Three places where a shell might be expected to behave differently, and the model follows the code:

- Tokens are split on space and newline only. A tab is not a delimiter.
- End of input is not treated as `exit`. The code does not handle EOF at all, so the model leaves it out.
- The label stored for a job is `args[1]` alone, cut to 1023 characters.

## Model

| member | source | states |
|---|---|---|
| CStrings.CString | ssi.c:187 | the text `%s` prints from a buffer is its prefix before the first NUL: a prefix, NUL-free, and ending at a NUL or at the end of the buffer |
| CStrings.StrNCopy | ssi.c:57 | `strncpy` fills exactly n characters: the source's C string cut to n, then NUL in every remaining position, so the result's own C string is that cut |
| CStrings.StoreLabel | ssi.c:57-58 | the stored label field is 1024 characters, its last one NUL; its C string is the source's C string cut to 1023 characters, and is the source itself when that is short and NUL-free |
| Jobs.AddJob | ssi.c:50-58 | insertion appends exactly one record: length grows by one, every earlier record is unchanged, the new record has the given pid and the truncated label, and well-formed label fields stay well-formed |
| Jobs.ReapMembers | ssi.c:70-80 | after a pass a record remains exactly when it was present and its pid was not reported terminated; it is reported exactly when its pid was |
| Jobs.ReapPartitions | ssi.c:72-78 | the records reported plus the records kept are exactly the old registry, as a multiset; their counts add up to the old length |
| Jobs.ReapAnnouncesPartition | ssi.c:72-78 | seen as the "has terminated" lines that would announce them, the kept and reported records together are the old registry, each exactly once |
| Jobs.SurvivorsSubseq | ssi.c:70-80 | what a pass keeps is the registry with some records left out and the rest in their original order |
| Jobs.ReapKeepsOrder | ssi.c:75-77 | two surviving records keep their relative order after the tail shifts |
| Jobs.ReapIdempotent | ssi.c:70-81 | a second pass with the same termination oracle removes nothing and reports nothing |
| Jobs.ReportedOnce | ssi.c:70-80 | a job reported by one pass cannot be reported by the next: everything the next pass reports survived the first |
| Jobs.ShiftLeft | ssi.c:75-77 | the inner loop closes the gap at slot i: the storage keeps its size, the slots before i are untouched and slots i .. n-2 take the old contents of i+1 .. n-1 |
| Jobs.Reap | ssi.c:68-83 | the forward scan with the in-place shift and `i--` leaves exactly the surviving records in their original order and prints one "has terminated" line per removed record, in registry order; no record is skipped |
| Jobs.ListJobs | ssi.c:186-189 | bglist prints one `pid: label` line per record in registry order, then a total equal to the number of lines listed |
| Tokenizer.LineOf | ssi.c:94 | cutting at the first newline leaves the prefix before the first newline or NUL |
| Tokenizer.Split | ssi.c:97-102 | strtok never yields an empty token, no token holds a space or newline, and every token character comes from the line |
| Tokenizer.Tokenize | ssi.c:91-103 | the argument vector holds non-empty tokens with no space, newline or NUL |
| Tokenizer.SplitWord | ssi.c:97-102 | a token followed by a delimiter or the end of the line is split off whole, and splitting resumes after it |
| Tokenizer.SplitSkips | ssi.c:97-102 | any run of delimiters before a token is skipped: a line that starts with delimiters splits as the rest of it does; with SplitWord this fixes the tokens of every line |
| Tokenizer.SplitJoin | ssi.c:97-102 | splitting a line built from well-formed tokens separated by spaces gives back those tokens |
| Tokenizer.SplitKeepsText | ssi.c:97-102 | the tokens, put together, are exactly the line's non-delimiter characters in order: nothing is lost or added |
| Tokenizer.TokenizeJoin | ssi.c:94-103 | a line typed as space-separated tokens is read back as exactly those tokens |
| ChangeDir.CdTarget | ssi.c:110-159 | no argument or `~` gives HOME; `~/rest` gives HOME followed by `/rest`, whole when it fits the 1024-byte buffer and otherwise its first 1023 characters; any other argument is used verbatim; an unset HOME is an error, without a chdir, exactly in the HOME-dependent cases |
| ChangeDir.HomeRelativeRoundTrip | ssi.c:125-131 | for `~/rest`, removing HOME from the front of the target leaves `/rest` when the path fits its buffer |
| ChangeDir.HomeScenario | ssi.c:113-131 | with HOME=/home/u, `cd ~` targets /home/u and `cd ~/sub` targets /home/u/sub |
| Shell.Classify | ssi.c:106-191 | the first token alone picks the branch (`exit`, `cd`, `bg`, `bglist`, otherwise a foreground command); `cd` takes args[1] if present, `bg` hands on the tokens after it, and a foreground command gets the full token list |
| Shell.ClassifyRender | ssi.c:106-191 | classification keeps everything a command needs: a command written out as tokens classifies back to itself |
| Shell.Dispatch | ssi.c:106-203 | only `exit` leaves the loop; a fork returning 0 makes this process the child running `args+1` for `bg` and `args` otherwise; `cd` hands its target to chdir or reports an unset HOME; `bg` alone reports the usage error; a failed fork is reported and the loop goes on with the registry unchanged; a successful foreground fork waits for a child; only `bg prog` with a positive fork result appends a job; no branch prints a "has terminated" line |
| Shell.Terminations | ssi.c:74 | the "has terminated" lines of an iteration's output, one per line counted |
| Shell.Iterate | ssi.c:87-210 | one iteration leaves the loop exactly on `exit`, and becomes the exec'ing child exactly when it forks and fork returns 0; only `bg prog` with a positive fork result inserts, with label `args[1]`; every other iteration ends with a reap; afterwards no job has a terminated pid, and length plus terminations reported equals old length plus insertions |
| Shell.BgWithoutProgram | ssi.c:161-181 | `bg` alone prints the usage error and leaves the registry to the reaping pass alone |
| Shell.BlankLineReaps | ssi.c:106-209 | an empty line does nothing but the reaping pass |
| Shell.Session | ssi.c:87-211 | the loop can end only where some line is `exit`, and this process can become the exec'ing child only where some line forked with result 0; a run with neither kind of line does not stop |
| Shell.SessionStopsAt | ssi.c:86-108 | every line before the first stopping line (`exit`, or a fork returning 0) is processed and the loop continues through them; that line's iteration, from the registry they left, is the outcome of the whole run, and no later line is read |
| Shell.SessionExits | ssi.c:106-108 | the loop ends on `exit` exactly when the first stopping line is an `exit` line |
| Shell.SessionForks | ssi.c:162-198 | this process becomes the exec'ing child exactly when the first stopping line is one whose fork returned 0 |
| Shell.IterateConserves | ssi.c:87-210 | one iteration loses and invents no job: the registry it leaves plus the terminations it prints are the registry it started from plus the job it launched, as a multiset of (pid, label) lines |
| Shell.IterateKeepsOrder | ssi.c:161-209 | what one iteration leaves is the old registry followed by the job it launched, with some records left out and the rest in order |
| Shell.SessionKeepsOrder | ssi.c:87-211 | over any run the registry is the starting registry followed by the launched jobs in launch order, with some left out: two jobs still running are listed in the order they were launched |
| Shell.SessionAccounts | ssi.c:87-211 | over any run of the loop, the registry holds as many jobs as it started with plus those launched, less those announced as terminated |
| Shell.SessionConserves | ssi.c:87-211 | over any run of the loop, the registry left plus the jobs announced as terminated are exactly the starting registry plus the jobs launched, as a multiset of (pid, label) lines |
| Shell.SessionReaped | ssi.c:87-211 | after any run of the loop, no job left has a pid the last pass saw terminated |
| Shell.SessionWellFormed | ssi.c:87-211 | over any run of the loop, every label field in the registry stays a full, NUL-terminated 1024-character buffer |
| Shell.BgListTotal | ssi.c:184-190 | after any run, bglist lists the registry and prints a total equal to the jobs launched and not yet reported terminated |
| Shell.LaunchSleep | ssi.c:161-177 | `bg sleep 1` with a successful fork registers one job labelled `sleep` and prints nothing |
| Shell.ListOne | ssi.c:184-190 | bglist over one running job prints `pid: label` for it and total 1 |
| Shell.ReapOne | ssi.c:68-80 | once a job's pid terminates, the next line, even an empty one, prints `pid: label has terminated.` for it and empties the registry |
| Shell.ListNothing | ssi.c:184-190 | bglist over an empty registry prints only total 0 |

## Left out

- `display_prompt` is left out. It only formats the values of `gethostname`, `getlogin_r` and `getcwd`.
- `fgets` and its end-of-input behaviour are left out. The input bytes of each iteration are a parameter.
- Real process creation and waiting are not modelled. `fork`, `execvp`, `wait` and `waitpid` are inputs or an oracle. What the child does after `execvp` is out of scope, and so is the `execvp` failure message.
- The effect of `chdir` and the `perror` it triggers on failure are not modelled. Only the computed target path is.
- The `realloc` failure path that exits the process is left out, and so is the final `free`. Both are memory management.
- The fixed `args[100]` array has no bounds check, and a line with more tokens overflows it. The model's token list is unbounded.
- `num_bg_processes` is a C `int`. Its overflow would need more than 2^31 background jobs and is not modelled.
- The oracle is a set of pids, so a pid that appears twice in the registry is treated alike at both places. In the C code the second `waitpid` on an already-reaped pid returns -1. This can happen: once `wait(NULL)` has reaped a background job (see below), its record stays, and the operating system may give the same pid to a later `bg` job. When that job ends, the code removes and announces only the first, stale record with its old label, and the new record is never removed. The model removes and announces both records.
- A `waitpid` result of -1 (error) and a result of 0 (still running) both keep the entry, as `pid > 0` in the code does. The model does not tell them apart.
- `wait(NULL)` after a foreground fork waits for any child. It can reap a background job that has already terminated, instead of the foreground command. That job's later `waitpid` then fails, and its entry is never removed. Modelling this would need the operating system's table of child processes. The model treats `WaitChild` as having no effect on the registry.
- HOME and the tokens are taken to be C strings with no NUL inside. Tokens are proved NUL-free. For HOME this is an assumption, because `getenv` returns a C string.

=== FILE: changedir.dfy ===
/** The `cd` built-in: from its optional first argument and the value of HOME
    to the path handed to chdir. */
module ChangeDir {

  import opened Wrappers
  import opened CStrings

  /** sizeof(new_path): the buffer snprintf builds the "~/..." path in. */
  const PathSize: nat := 1024

  datatype CdResult =
    | ChangeTo(path: string)   // chdir(path); a failing chdir is reported by perror
    | HomeNotSet               // "cd: HOME environment variable not set", no chdir

  /** `cd` alone and `cd ~` go to HOME itself. */
  predicate IsHome(arg: Option<string>) {
    arg == None || arg == Some("~")
  }

  /** `cd ~/rest`: HOME followed by the argument without its `~`. */
  predicate IsHomeRelative(arg: Option<string>) {
    arg.Some? && |arg.value| >= 2 && arg.value[0] == '~' && arg.value[1] == '/'
  }

  /** Whether the target depends on HOME at all. */
  predicate UsesHome(arg: Option<string>) {
    IsHome(arg) || IsHomeRelative(arg)
  }

  /** The cd branch of main. `arg` is args[1] when the line has one, `home` is
      getenv("HOME"). */
  function CdTarget(arg: Option<string>, home: Option<string>): (r: CdResult)
    ensures r.HomeNotSet? <==> UsesHome(arg) && home.None?
    ensures IsHome(arg) && home.Some? ==> r == ChangeTo(home.value)
    ensures IsHomeRelative(arg) && home.Some? ==>
      && r.ChangeTo?
      && r.path <= home.value + arg.value[1..]
      && (|home.value| + |arg.value| - 1 < PathSize ==> r.path == home.value + arg.value[1..])
      && (|home.value| + |arg.value| - 1 >= PathSize ==> |r.path| == PathSize - 1)
    ensures !UsesHome(arg) ==> r == ChangeTo(arg.value)
  {
    match arg
    case None => HomeDir(home)
    case Some(a) =>
      if a == "~" then HomeDir(home)
      else if |a| >= 2 && a[0] == '~' && a[1] == '/' then
        match home
        case None => HomeNotSet
        case Some(h) => ChangeTo(Truncate(h + a[1..], PathSize - 1))
      else ChangeTo(a)
  }

  function HomeDir(home: Option<string>): CdResult {
    match home
    case None => HomeNotSet
    case Some(h) => ChangeTo(h)
  }

  /** Expanding `~/rest` and then taking HOME back off the front returns the
      argument without its `~`, as long as the path fits the buffer. */
  lemma HomeRelativeRoundTrip(rest: string, home: string)
    requires |home| + |rest| + 1 < PathSize
    ensures CdTarget(Some("~/" + rest), Some(home)).path[|home|..] == "/" + rest
  {
    var a := "~/" + rest;
    assert a[1..] == "/" + rest;
  }

  /** With HOME set to /home/u, `cd ~` goes to /home/u and `cd ~/sub` to
      /home/u/sub. */
  lemma HomeScenario(home: string)
    requires home == "/home/u"
    ensures CdTarget(Some("~"), Some(home)) == ChangeTo("/home/u")
    ensures CdTarget(Some("~/sub"), Some(home)) == ChangeTo("/home/u/sub")
  {
    assert "~/sub"[1..] == "/sub";
    assert home + "/sub" == "/home/u/sub";
  }
}

=== FILE: cstrings.dfy ===
/** NUL-terminated character buffers as the shell's C code handles them. */
module CStrings {

  const NUL: char := '\0'

  /** sizeof(((struct background_process *)0)->command) */
  const LabelSize: nat := 1024

  /** The C string held in `buf`: the characters before its first NUL, or all of
      `buf` when it holds none. */
  function CString(buf: seq<char>): (r: seq<char>)
    ensures r <= buf
    ensures NUL !in r
    ensures |r| < |buf| ==> buf[|r|] == NUL
  {
    if buf == [] || buf[0] == NUL then [] else [buf[0]] + CString(buf[1..])
  }

  /** A prefix of `buf` that holds no NUL and ends where `buf` ends or at a NUL
      is the C string of `buf`: the three facts CString promises pin it down. */
  lemma CStringUnique(s: seq<char>, buf: seq<char>)
    requires s <= buf && NUL !in s
    requires |s| == |buf| || buf[|s|] == NUL
    ensures CString(buf) == s
  {
  }

  /** A sequence with no NUL in it is its own C string. */
  lemma CStringOfPlain(s: seq<char>)
    ensures NUL !in s ==> CString(s) == s
  {
    if NUL !in s {
      CStringUnique(s, s);
    }
  }

  /** The first `n` characters of `s`, or all of it when it is shorter. */
  function Truncate(s: seq<char>, n: nat): (r: seq<char>)
    ensures r <= s && |r| <= n
    ensures |s| <= n ==> r == s
    ensures |r| < |s| ==> |r| == n
  {
    if |s| <= n then s else s[..n]
  }

  /** strncpy(dest, src, n): the C string of `src`, cut to `n` characters, then
      NUL padding up to exactly `n` characters. */
  function StrNCopy(src: seq<char>, n: nat): (dest: seq<char>)
    ensures |dest| == n
    ensures Truncate(CString(src), n) <= dest
    ensures forall k :: |Truncate(CString(src), n)| <= k < n ==> dest[k] == NUL
    ensures CString(dest) == Truncate(CString(src), n)
  {
    var s := Truncate(CString(src), n);
    var dest := s + seq(n - |s|, _ => NUL);
    CStringUnique(s, dest);
    dest
  }

  /** The label buffer of a background job after `strncpy` into the 1024-byte
      field and the explicit NUL in its last byte: always terminated, and its C
      string is the source's C string cut to 1023 characters. */
  function StoreLabel(src: seq<char>): (buf: seq<char>)
    ensures |buf| == LabelSize && buf[LabelSize - 1] == NUL
    ensures CString(buf) == Truncate(CString(src), LabelSize - 1)
    ensures NUL !in src && |src| < LabelSize ==> CString(buf) == src
  {
    var buf := StrNCopy(src, LabelSize)[LabelSize - 1 := NUL];
    var s := Truncate(CString(src), LabelSize - 1);
    assert s <= buf by {
      var full := Truncate(CString(src), LabelSize);
      assert s <= full;
      assert forall k :: 0 <= k < |s| ==> buf[k] == full[k];
    }
    CStringUnique(s, buf);
    CStringOfPlain(src);
    buf
  }
}

=== FILE: jobs.dfy ===
/** The background-job registry: the global array `bg_processes` of
    `num_bg_processes` records, modelled as an ordered sequence. */
module Jobs {

  import opened CStrings

  /** struct background_process: the pid fork returned and the 1024-byte
      command buffer. */
  datatype Job = Job(pid: int, command: seq<char>) {

    /** The text `%s` prints for this job. */
    function Label(): seq<char> {
      CString(command)
    }
  }

  /** A line the registry prints on standard output. */
  datatype Report =
    | Listed(pid: int, text: seq<char>)       // "%d: %s\n" from bglist
    | Total(count: int)                        // "Total background jobs: %d\n"
    | Terminated(pid: int, text: seq<char>)   // "%d: %s has terminated.\n"

  /** Every command buffer is a full, terminated 1024-byte field. */
  predicate WellFormed(jobs: seq<Job>) {
    forall k :: 0 <= k < |jobs| ==>
      |jobs[k].command| == LabelSize && jobs[k].command[LabelSize - 1] == NUL
  }

  /** add_bg_process: one record appended at the end, holding the pid and the
      command text cut to the label field. */
  function AddJob(jobs: seq<Job>, pid: int, command: seq<char>): (r: seq<Job>)
    ensures |r| == |jobs| + 1
    ensures r[..|jobs|] == jobs
    ensures r[|jobs|].pid == pid
    ensures r[|jobs|].Label() == Truncate(CString(command), LabelSize - 1)
    ensures WellFormed(jobs) ==> WellFormed(r)
  {
    jobs + [Job(pid, StoreLabel(command))]
  }

  // ---------------------------------------------------------------------------
  // Reaping: the reference definition of what one pass of bg_process_status
  // leaves behind and reports. `done` holds the pids for which
  // waitpid(pid, NULL, WNOHANG) returns a positive value during the pass.
  // ---------------------------------------------------------------------------

  /** The jobs a pass keeps, in registry order. */
  function Survivors(jobs: seq<Job>, done: set<int>): (r: seq<Job>)
    ensures |r| <= |jobs|
  {
    if jobs == [] then []
    else (if jobs[0].pid in done then [] else [jobs[0]]) + Survivors(jobs[1..], done)
  }

  /** The jobs a pass removes, in the order it finds them. */
  function Reported(jobs: seq<Job>, done: set<int>): (r: seq<Job>)
    ensures |r| <= |jobs|
  {
    if jobs == [] then []
    else (if jobs[0].pid in done then [jobs[0]] else []) + Reported(jobs[1..], done)
  }

  /** A record survives a pass exactly when it was in the registry and its pid
      was not reported terminated; it is reported exactly when its pid was. */
  lemma {:induction false} ReapMembers(jobs: seq<Job>, done: set<int>, x: Job)
    ensures x in Survivors(jobs, done) <==> x in jobs && x.pid !in done
    ensures x in Reported(jobs, done) <==> x in jobs && x.pid in done
  {
    if jobs != [] {
      ReapMembers(jobs[1..], done, x);
      assert jobs == [jobs[0]] + jobs[1..];
    }
  }

  /** The "has terminated" lines for removed jobs, one per job, in order. */
  function Announce(gone: seq<Job>): (lines: seq<Report>)
    ensures |lines| == |gone|
    ensures forall k :: 0 <= k < |gone| ==> lines[k] == Terminated(gone[k].pid, gone[k].Label())
  {
    if gone == [] then [] else [Terminated(gone[0].pid, gone[0].Label())] + Announce(gone[1..])
  }

  lemma {:induction false} SurvivorsAppend(a: seq<Job>, b: seq<Job>, done: set<int>)
    ensures Survivors(a + b, done) == Survivors(a, done) + Survivors(b, done)
    ensures Reported(a + b, done) == Reported(a, done) + Reported(b, done)
  {
    if a == [] {
      assert a + b == b;
    } else {
      var ab := a + b;
      assert ab[0] == a[0] && ab[1..] == a[1..] + b;
      SurvivorsAppend(a[1..], b, done);
      var keep := if a[0].pid in done then [] else [a[0]];
      var gone := if a[0].pid in done then [a[0]] else [];
      calc {
        Survivors(ab, done);
        keep + Survivors(a[1..] + b, done);
        keep + (Survivors(a[1..], done) + Survivors(b, done));
        (keep + Survivors(a[1..], done)) + Survivors(b, done);
      }
      calc {
        Reported(ab, done);
        gone + Reported(a[1..] + b, done);
        gone + (Reported(a[1..], done) + Reported(b, done));
        (gone + Reported(a[1..], done)) + Reported(b, done);
      }
    }
  }

  lemma {:induction false} AnnounceAppend(a: seq<Job>, b: seq<Job>)
    ensures Announce(a + b) == Announce(a) + Announce(b)
  {
    if a == [] {
      assert a + b == b;
    } else {
      assert (a + b)[1..] == a[1..] + b;
      AnnounceAppend(a[1..], b);
    }
  }

  /** A pass splits the registry: every record is either kept or reported,
      exactly once, so the counts add up and nothing is duplicated or lost. */
  lemma {:induction false} ReapPartitions(jobs: seq<Job>, done: set<int>)
    ensures |Survivors(jobs, done)| + |Reported(jobs, done)| == |jobs|
    ensures multiset(Survivors(jobs, done)) + multiset(Reported(jobs, done)) == multiset(jobs)
  {
    if jobs != [] {
      ReapPartitions(jobs[1..], done);
      assert jobs == [jobs[0]] + jobs[1..];
    }
  }

  /** The same split seen through the lines that would announce each record:
      the announcements of the kept and of the reported records together are
      those of the whole registry. */
  lemma {:induction false} ReapAnnouncesPartition(jobs: seq<Job>, done: set<int>)
    ensures multiset(Announce(Survivors(jobs, done))) + multiset(Announce(Reported(jobs, done)))
      == multiset(Announce(jobs))
  {
    if jobs != [] {
      var x, rest := jobs[0], jobs[1..];
      ReapAnnouncesPartition(rest, done);
      var kept, gone := Survivors(rest, done), Reported(rest, done);
      var line := Terminated(x.pid, x.Label());
      assert Announce(jobs) == [line] + Announce(rest);
      if x.pid in done {
        assert Survivors(jobs, done) == kept;
        assert Reported(jobs, done) == [x] + gone;
        assert Announce([x] + gone) == [line] + Announce(gone);
      } else {
        assert Survivors(jobs, done) == [x] + kept;
        assert Reported(jobs, done) == gone;
        assert Announce([x] + kept) == [line] + Announce(kept);
      }
    }
  }

  /** Relative order is kept: if record a comes before record b in the
      registry and both survive, a still comes before b. */
  lemma ReapKeepsOrder(jobs: seq<Job>, done: set<int>, i: int, j: int)
    requires 0 <= i < j < |jobs|
    requires jobs[i].pid !in done && jobs[j].pid !in done
    ensures exists p, q ::
      && 0 <= p < q < |Survivors(jobs, done)|
      && Survivors(jobs, done)[p] == jobs[i]
      && Survivors(jobs, done)[q] == jobs[j]
  {
    var front, mid, back := jobs[..i], jobs[i..j], jobs[j..];
    assert jobs == front + (mid + back);
    SurvivorsAppend(front, mid + back, done);
    SurvivorsAppend(mid, back, done);
    var sf, sm, sb := Survivors(front, done), Survivors(mid, done), Survivors(back, done);
    SurvivorsHead(mid, done);
    SurvivorsHead(back, done);
    var s := Survivors(jobs, done);
    assert s == sf + (sm + sb);
    assert s[|sf|] == sm[0];
    assert s[|sf| + |sm|] == sb[0];
  }

  lemma SurvivorsHead(jobs: seq<Job>, done: set<int>)
    requires jobs != [] && jobs[0].pid !in done
    ensures Survivors(jobs, done) == [jobs[0]] + Survivors(jobs[1..], done)
  {
  }

  /** `a` is `b` with some elements left out and the rest kept in order. */
  predicate Subseq<T(==)>(a: seq<T>, b: seq<T>)
    decreases |b|
  {
    if b == [] then a == []
    else Subseq(a, b[1..]) || (a != [] && a[0] == b[0] && Subseq(a[1..], b[1..]))
  }

  lemma {:induction false} SubseqRefl<T>(a: seq<T>)
    ensures Subseq(a, a)
  {
    if a != [] {
      SubseqRefl(a[1..]);
    }
  }

  lemma {:induction false} SubseqTrans<T>(a: seq<T>, b: seq<T>, c: seq<T>)
    requires Subseq(a, b) && Subseq(b, c)
    ensures Subseq(a, c)
    decreases |c|
  {
    if c != [] {
      if Subseq(b, c[1..]) {
        SubseqTrans(a, b, c[1..]);
      } else if Subseq(a, b[1..]) {
        SubseqTrans(a, b[1..], c[1..]);
      } else {
        SubseqTrans(a[1..], b[1..], c[1..]);
      }
    }
  }

  /** Keeping a subsequence relation while the same records are appended to
      both sides. */
  lemma {:induction false} SubseqAppend<T>(a: seq<T>, b: seq<T>, c: seq<T>)
    requires Subseq(a, b)
    ensures Subseq(a + c, b + c)
    decreases |b|
  {
    if b == [] {
      assert a + c == c && b + c == c;
      SubseqRefl(c);
    } else {
      assert (b + c)[0] == b[0] && (b + c)[1..] == b[1..] + c;
      if Subseq(a, b[1..]) {
        SubseqAppend(a, b[1..], c);
      } else {
        assert (a + c)[0] == a[0] && (a + c)[1..] == a[1..] + c;
        SubseqAppend(a[1..], b[1..], c);
      }
    }
  }

  /** A pass only removes records: what it keeps is the registry with some
      records left out and the others in their original order. */
  lemma {:induction false} SurvivorsSubseq(jobs: seq<Job>, done: set<int>)
    ensures Subseq(Survivors(jobs, done), jobs)
  {
    if jobs != [] {
      SurvivorsSubseq(jobs[1..], done);
      if jobs[0].pid !in done {
        var kept := Survivors(jobs, done);
        assert kept == [jobs[0]] + Survivors(jobs[1..], done);
        assert kept[1..] == Survivors(jobs[1..], done);
      } else {
        assert Survivors(jobs, done) == Survivors(jobs[1..], done);
      }
    }
  }

  /** A second pass with the same oracle finds nothing left to remove. */
  lemma {:induction false} ReapIdempotent(jobs: seq<Job>, done: set<int>)
    ensures Survivors(Survivors(jobs, done), done) == Survivors(jobs, done)
    ensures Reported(Survivors(jobs, done), done) == []
  {
    if jobs != [] {
      ReapIdempotent(jobs[1..], done);
      var rest := Survivors(jobs[1..], done);
      if jobs[0].pid !in done {
        var s := [jobs[0]] + rest;
        assert Survivors(jobs, done) == s;
        assert s[0] == jobs[0] && s[1..] == rest;
        assert Survivors(s, done) == [jobs[0]] + Survivors(rest, done);
        assert Reported(s, done) == Reported(rest, done);
      } else {
        assert Survivors(jobs, done) == [] + rest == rest;
      }
    }
  }

  /** A job reported by one pass is no longer there to be reported by the next:
      every pid the second pass reports was not terminated in the first. */
  lemma ReportedOnce(jobs: seq<Job>, first: set<int>, second: set<int>)
    ensures forall x :: x in Reported(Survivors(jobs, first), second) ==>
      x !in Reported(jobs, first) && x.pid !in first
  {
    forall x | x in Reported(Survivors(jobs, first), second)
      ensures x !in Reported(jobs, first) && x.pid !in first
    {
      ReapMembers(Survivors(jobs, first), second, x);
      ReapMembers(jobs, first, x);
    }
  }

  // ---------------------------------------------------------------------------
  // The C loops, on an array.
  // ---------------------------------------------------------------------------

  /** The inner loop of bg_process_status: bg_processes[j] = bg_processes[j + 1]
      for j from i up to n - 2, closing the gap at slot i. The storage keeps
      its size; only the first n - 1 slots matter afterwards. */
  method ShiftLeft(slots: seq<Job>, i: int, n: int) returns (shifted: seq<Job>)
    requires 0 <= i < n <= |slots|
    ensures |shifted| == |slots|
    ensures shifted[..n - 1] == slots[..n][..i] + slots[..n][i + 1..]
  {
    shifted := slots;
    var j := i;
    while j < n - 1
      invariant i <= j <= n - 1
      invariant |shifted| == |slots|
      invariant forall m :: 0 <= m < i ==> shifted[m] == slots[m]
      invariant forall m :: i <= m < j ==> shifted[m] == slots[m + 1]
      invariant forall m :: j <= m < |slots| ==> shifted[m] == slots[m]
    {
      shifted := shifted[j := shifted[j + 1]];
      j := j + 1;
    }
    assert shifted[..n - 1] == slots[..n][..i] + slots[..n][i + 1..];
  }

  /** What one more examined record adds to the pass over a prefix. */
  lemma ReapStep(jobs: seq<Job>, k: int, done: set<int>)
    requires 0 <= k < |jobs|
    ensures jobs[k].pid in done ==>
      && Survivors(jobs[..k + 1], done) == Survivors(jobs[..k], done)
      && Announce(Reported(jobs[..k + 1], done))
         == Announce(Reported(jobs[..k], done)) + [Terminated(jobs[k].pid, jobs[k].Label())]
    ensures jobs[k].pid !in done ==>
      && Survivors(jobs[..k + 1], done) == Survivors(jobs[..k], done) + [jobs[k]]
      && Reported(jobs[..k + 1], done) == Reported(jobs[..k], done)
  {
    assert jobs[..k + 1] == jobs[..k] + [jobs[k]];
    SurvivorsAppend(jobs[..k], [jobs[k]], done);
    AnnounceAppend(Reported(jobs[..k], done), Reported([jobs[k]], done));
    assert [jobs[k]][1..] == [];
  }

  /** One step of the scan, on the registry contents `cur`: the kept prefix,
      then the records not yet examined. Removing the examined record (or
      keeping it) gives the same shape one record further on. */
  lemma ScanStep(jobs: seq<Job>, k: int, done: set<int>, cur: seq<Job>)
    requires 0 <= k < |jobs|
    requires cur == Survivors(jobs[..k], done) + jobs[k..]
    ensures |Survivors(jobs[..k], done)| < |cur|
    ensures cur[|Survivors(jobs[..k], done)|] == jobs[k]
    ensures jobs[k].pid in done ==>
      && cur[..|Survivors(jobs[..k], done)|] + cur[|Survivors(jobs[..k], done)| + 1..]
         == Survivors(jobs[..k + 1], done) + jobs[k + 1..]
      && |Survivors(jobs[..k + 1], done)| == |Survivors(jobs[..k], done)|
      && Announce(Reported(jobs[..k + 1], done))
         == Announce(Reported(jobs[..k], done)) + [Terminated(jobs[k].pid, jobs[k].Label())]
    ensures jobs[k].pid !in done ==>
      && cur == Survivors(jobs[..k + 1], done) + jobs[k + 1..]
      && |Survivors(jobs[..k + 1], done)| == |Survivors(jobs[..k], done)| + 1
      && Reported(jobs[..k + 1], done) == Reported(jobs[..k], done)
  {
    ReapStep(jobs, k, done);
    var kept := Survivors(jobs[..k], done);
    var rest := jobs[k..];
    assert rest == [jobs[k]] + jobs[k + 1..];
    assert cur[|kept|] == rest[0];
    if jobs[k].pid in done {
      assert cur[..|kept|] == kept;
      assert cur[|kept| + 1..] == jobs[k + 1..];
    } else {
      calc {
        cur;
        kept + ([jobs[k]] + jobs[k + 1..]);
        (kept + [jobs[k]]) + jobs[k + 1..];
      }
    }
  }

  /** bg_process_status: a forward scan over the registry that, on finding a
      terminated job, prints it, shifts the tail left over it, shrinks the count
      and steps `i` back so the record that slid into slot `i` is examined next.
      It keeps exactly the survivors, in order, and reports the terminated jobs
      once each, in registry order. */
  method Reap(jobs: seq<Job>, done: set<int>) returns (remaining: seq<Job>, lines: seq<Report>)
    ensures remaining == Survivors(jobs, done)
    ensures lines == Announce(Reported(jobs, done))
    ensures |lines| + |remaining| == |jobs|
  {
    var slots := jobs;
    var n := |jobs|;
    var i := 0;
    ghost var k := 0;
    lines := [];
    assert slots[..n] == [] + jobs[0..];
    while i < n
      invariant 0 <= i <= n <= |slots| == |jobs|
      invariant 0 <= k <= |jobs| && n - i == |jobs| - k
      invariant i == |Survivors(jobs[..k], done)|
      invariant slots[..n] == Survivors(jobs[..k], done) + jobs[k..]
      invariant lines == Announce(Reported(jobs[..k], done))
      decreases n - i
    {
      ScanStep(jobs, k, done, slots[..n]);
      assert slots[i] == slots[..n][i];
      if slots[i].pid in done {
        lines := lines + [Terminated(slots[i].pid, slots[i].Label())];
        slots := ShiftLeft(slots, i, n);
        n := n - 1;
        i := i - 1;
      }
      i := i + 1;
      k := k + 1;
    }
    assert jobs[..k] == jobs;
    remaining := slots[..n];
    ReapPartitions(jobs, done);
  }

  /** One "%d: %s" line per record, in registry order. */
  function ListedLines(jobs: seq<Job>): (lines: seq<Report>)
    ensures |lines| == |jobs|
    ensures forall k :: 0 <= k < |jobs| ==> lines[k] == Listed(jobs[k].pid, jobs[k].Label())
  {
    if jobs == [] then [] else [Listed(jobs[0].pid, jobs[0].Label())] + ListedLines(jobs[1..])
  }

  /** The lines the bglist branch prints: the records, then the total. */
  function Listing(jobs: seq<Job>): seq<Report> {
    ListedLines(jobs) + [Total(|jobs|)]
  }

  /** How many lines of `lines` list a job. */
  function CountListed(lines: seq<Report>): nat {
    if lines == [] then 0 else (if lines[0].Listed? then 1 else 0) + CountListed(lines[1..])
  }

  lemma {:induction false} CountListedAppend(a: seq<Report>, b: seq<Report>)
    ensures CountListed(a + b) == CountListed(a) + CountListed(b)
  {
    if a == [] {
      assert a + b == b;
    } else {
      assert (a + b)[1..] == a[1..] + b;
      CountListedAppend(a[1..], b);
    }
  }

  lemma {:induction false} CountListedLines(jobs: seq<Job>)
    ensures CountListed(ListedLines(jobs)) == |jobs|
  {
    if jobs != [] {
      CountListedLines(jobs[1..]);
    }
  }

  /** The total bglist prints equals the number of records it lists. */
  lemma ListingCounts(jobs: seq<Job>)
    ensures CountListed(Listing(jobs)) == |jobs|
  {
    CountListedLines(jobs);
    CountListedAppend(ListedLines(jobs), [Total(|jobs|)]);
  }

  lemma ListStep(jobs: seq<Job>, i: int)
    requires 0 <= i < |jobs|
    ensures ListedLines(jobs[..i + 1]) == ListedLines(jobs[..i]) + [Listed(jobs[i].pid, jobs[i].Label())]
  {
    assert jobs[..i + 1] == jobs[..i] + [jobs[i]];
    ListedLinesAppend(jobs[..i], [jobs[i]]);
  }

  /** The loop of the bglist branch: one line per record in registry order, then
      a total that equals the number of lines listed above it. */
  method ListJobs(jobs: seq<Job>) returns (lines: seq<Report>)
    ensures lines == Listing(jobs)
    ensures |lines| == |jobs| + 1
    ensures forall k :: 0 <= k < |jobs| ==> lines[k] == Listed(jobs[k].pid, jobs[k].Label())
    ensures lines[|jobs|] == Total(CountListed(lines))
  {
    lines := [];
    var i := 0;
    while i < |jobs|
      invariant 0 <= i <= |jobs|
      invariant lines == ListedLines(jobs[..i])
    {
      ListStep(jobs, i);
      lines := lines + [Listed(jobs[i].pid, jobs[i].Label())];
      i := i + 1;
    }
    assert jobs[..i] == jobs;
    lines := lines + [Total(|jobs|)];
    ListingCounts(jobs);
  }

  lemma {:induction false} ListedLinesAppend(a: seq<Job>, b: seq<Job>)
    ensures ListedLines(a + b) == ListedLines(a) + ListedLines(b)
  {
    if a == [] {
      assert a + b == b;
    } else {
      assert (a + b)[1..] == a[1..] + b;
      ListedLinesAppend(a[1..], b);
    }
  }
}

=== FILE: shell.dfy ===
/** The read-parse-dispatch loop of main: one iteration classifies the tokens
    of a line, runs the matching branch, and ends with a reaping pass. */
module Shell {

  import opened Wrappers
  import opened CStrings
  import opened Jobs
  import opened Tokenizer
  import opened ChangeDir

  /** The branch of main's if-chain a token list selects. */
  datatype Command =
    | Blank                       // no tokens: nothing but the reaping pass
    | Exit                        // "exit": leave the loop
    | Cd(target: Option<string>)  // "cd", with args[1] when present
    | Bg(argv: seq<string>)       // "bg": args + 1, the vector handed to execvp
    | BgList                      // "bglist"
    | Run(argv: seq<string>)      // anything else, run in the foreground

  /** The names main compares args[0] against with strcmp. */
  predicate IsBuiltin(name: string) {
    name == "exit" || name == "cd" || name == "bg" || name == "bglist"
  }

  function Classify(tokens: seq<string>): (c: Command)
    ensures c.Blank? <==> tokens == []
    ensures c.Exit? <==> tokens != [] && tokens[0] == "exit"
    ensures c.Cd? <==> tokens != [] && tokens[0] == "cd"
    ensures c.Bg? <==> tokens != [] && tokens[0] == "bg"
    ensures c.BgList? <==> tokens != [] && tokens[0] == "bglist"
    ensures c.Run? <==> tokens != [] && !IsBuiltin(tokens[0])
    ensures c.Cd? ==> c.target == if |tokens| > 1 then Some(tokens[1]) else None
    ensures c.Bg? ==> tokens == ["bg"] + c.argv
    ensures c.Run? ==> c.argv == tokens
  {
    if tokens == [] then Blank
    else if tokens[0] == "exit" then Exit
    else if tokens[0] == "cd" then Cd(if |tokens| > 1 then Some(tokens[1]) else None)
    else if tokens[0] == "bg" then Bg(tokens[1..])
    else if tokens[0] == "bglist" then BgList
    else Run(tokens)
  }

  /** The shortest token list that selects a command. */
  function Render(c: Command): seq<string> {
    match c
    case Blank => []
    case Exit => ["exit"]
    case Cd(t) => if t.Some? then ["cd", t.value] else ["cd"]
    case Bg(argv) => ["bg"] + argv
    case BgList => ["bglist"]
    case Run(argv) => argv
  }

  /** A foreground command names a program that is not a built-in. */
  predicate Renderable(c: Command) {
    c.Run? ==> c.argv != [] && !IsBuiltin(c.argv[0])
  }

  /** Classification loses nothing a command needs: writing a command out and
      classifying it again gives the same command back. */
  lemma ClassifyRender(c: Command)
    requires Renderable(c)
    ensures Classify(Render(c)) == c
  {
    match c
    case Bg(argv) =>
      assert (["bg"] + argv)[1..] == argv;
    case _ =>
  }

  /** Why a command produced an error message on standard error. */
  datatype Failure =
    | HomeUnset         // "cd: HOME environment variable not set"
    | NoCommandGiven    // "bg: No command given"
    | ForkFailed        // perror("fork")

  /** What one iteration does that can be observed from outside. */
  datatype Event =
    | Chdir(path: string)   // chdir(path)
    | Error(failure: Failure)
    | WaitChild             // wait(NULL) after a successful foreground fork
    | Print(line: Report)

  /** What the system calls of one iteration return: getenv("HOME"), the value
      fork returns to this process, and the pids waitpid(..., WNOHANG) reports
      terminated during the reaping pass. */
  datatype Env = Env(home: Option<string>, fork: int, done: set<int>)

  datatype Outcome =
    | Exited                                        // the loop ended on "exit"
    | ChildExec(argv: seq<string>)                  // fork returned 0: this process is the child, it runs execvp
    | Continue(jobs: seq<Job>, events: seq<Event>)  // back to the prompt

  function Printed(lines: seq<Report>): (events: seq<Event>)
    ensures |events| == |lines|
    ensures forall k :: 0 <= k < |lines| ==> events[k] == Print(lines[k])
  {
    if lines == [] then [] else [Print(lines[0])] + Printed(lines[1..])
  }

  /** One branch of main's if-chain, before the reaping pass. Only `exit`
      leaves the loop and only a fork that returns 0 turns this process into
      the child; every failure is reported and the loop goes on with the
      registry unchanged. */
  function Dispatch(jobs: seq<Job>, c: Command, env: Env): (r: Outcome)
    ensures r.Exited? <==> c.Exit?
    ensures r.ChildExec? <==> env.fork == 0 && (c.Run? || (c.Bg? && c.argv != []))
    ensures r.ChildExec? ==> r.argv == c.argv
    ensures r.Continue? ==>
      r.jobs == if c.Bg? && c.argv != [] && env.fork > 0 then AddJob(jobs, env.fork, c.argv[0]) else jobs
    ensures r.Continue? ==> Terminations(r.events) == []
    ensures c.Cd? && CdTarget(c.target, env.home).HomeNotSet? ==> r == Continue(jobs, [Error(HomeUnset)])
    ensures c.Cd? && CdTarget(c.target, env.home).ChangeTo? ==>
      r == Continue(jobs, [Chdir(CdTarget(c.target, env.home).path)])
    ensures c.Bg? && c.argv == [] ==> r == Continue(jobs, [Error(NoCommandGiven)])
    ensures (c.Run? || (c.Bg? && c.argv != [])) && env.fork < 0 ==> r == Continue(jobs, [Error(ForkFailed)])
    ensures c.Bg? && c.argv != [] && env.fork > 0 ==> r.Continue? && r.events == []
    ensures c.Run? && env.fork > 0 ==> r == Continue(jobs, [WaitChild])
    ensures c.BgList? ==> r == Continue(jobs, Printed(Listing(jobs)))
    ensures c.Blank? ==> r == Continue(jobs, [])
  {
    match c
    case Blank => Continue(jobs, [])
    case Exit => Exited
    case Cd(t) =>
      (match CdTarget(t, env.home)
       case ChangeTo(p) => Continue(jobs, [Chdir(p)])
       case HomeNotSet => Continue(jobs, [Error(HomeUnset)]))
    case Bg(argv) =>
      if argv == [] then Continue(jobs, [Error(NoCommandGiven)])
      else if env.fork == 0 then ChildExec(argv)
      else if env.fork < 0 then Continue(jobs, [Error(ForkFailed)])
      else Continue(AddJob(jobs, env.fork, argv[0]), [])
    case BgList =>
      NoTerminatedInListing(jobs);
      Continue(jobs, Printed(Listing(jobs)))
    case Run(argv) =>
      if env.fork == 0 then ChildExec(argv)
      else if env.fork < 0 then Continue(jobs, [Error(ForkFailed)])
      else Continue(jobs, [WaitChild])
  }

  /** Whether a line is `bg prog ...` whose fork succeeded: the one case that
      adds a job. */
  predicate Launches(tokens: seq<string>, env: Env) {
    |tokens| > 1 && tokens[0] == "bg" && env.fork > 0
  }

  /** Whether a line makes this process fork and, in the child, exec. */
  predicate Forks(tokens: seq<string>) {
    tokens != [] && ((tokens[0] == "bg" && |tokens| > 1) || !IsBuiltin(tokens[0]))
  }

  /** How many "has terminated" lines `events` holds. */
  function CountTerminated(events: seq<Event>): nat {
    if events == [] then 0
    else (if events[0].Print? && events[0].line.Terminated? then 1 else 0) + CountTerminated(events[1..])
  }

  /** The "has terminated" lines among `events`, in the order printed. */
  function Terminations(events: seq<Event>): (lines: seq<Report>)
    ensures |lines| == CountTerminated(events)
    ensures forall k :: 0 <= k < |lines| ==> lines[k].Terminated?
  {
    if events == [] then []
    else
      var head := if events[0].Print? && events[0].line.Terminated? then [events[0].line] else [];
      head + Terminations(events[1..])
  }

  /** One iteration of the while loop in main, from the bytes fgets read. */
  function Iterate(jobs: seq<Job>, input: seq<char>, env: Env): (r: Outcome)
    ensures r.Exited? <==> Tokenize(input) != [] && Tokenize(input)[0] == "exit"
    ensures r.ChildExec? <==> Forks(Tokenize(input)) && env.fork == 0
    ensures r.ChildExec? ==>
      r.argv == if Tokenize(input)[0] == "bg" then Tokenize(input)[1..] else Tokenize(input)
    ensures r.Continue? && Launches(Tokenize(input), env) ==>
      r.jobs == Survivors(AddJob(jobs, env.fork, Tokenize(input)[1]), env.done)
    ensures r.Continue? && !Launches(Tokenize(input), env) ==>
      r.jobs == Survivors(jobs, env.done)
    ensures r.Continue? ==> forall x :: x in r.jobs ==> x.pid !in env.done
    ensures r.Continue? ==>
      |r.jobs| + CountTerminated(r.events) == |jobs| + (if Launches(Tokenize(input), env) then 1 else 0)
    ensures r.Continue? && WellFormed(jobs) ==> WellFormed(r.jobs)
  {
    var tokens := Tokenize(input);
    match Dispatch(jobs, Classify(tokens), env)
    case Continue(js, ev) =>
      var gone := Reported(js, env.done);
      var r := Continue(Survivors(js, env.done), ev + Printed(Announce(gone)));
      IterateFacts(jobs, tokens, env, js, ev);
      r
    case other => other
  }

  /** The bookkeeping behind Iterate's contract, for the Continue case. */
  lemma IterateFacts(jobs: seq<Job>, tokens: seq<string>, env: Env, js: seq<Job>, ev: seq<Event>)
    requires Dispatch(jobs, Classify(tokens), env) == Continue(js, ev)
    ensures js == if Launches(tokens, env) then AddJob(jobs, env.fork, tokens[1]) else jobs
    ensures forall x :: x in Survivors(js, env.done) ==> x.pid !in env.done
    ensures |Survivors(js, env.done)| + CountTerminated(ev + Printed(Announce(Reported(js, env.done))))
      == |jobs| + (if Launches(tokens, env) then 1 else 0)
    ensures WellFormed(jobs) ==> WellFormed(Survivors(js, env.done))
  {
    DispatchEffect(jobs, tokens, env, js, ev);
    ReapFacts(js, env.done);
    CountTerminatedAppend(ev, Printed(Announce(Reported(js, env.done))));
  }

  /** Before the reaping pass only a launched `bg` changes the registry, and no
      branch prints a "has terminated" line. */
  lemma DispatchEffect(jobs: seq<Job>, tokens: seq<string>, env: Env, js: seq<Job>, ev: seq<Event>)
    requires Dispatch(jobs, Classify(tokens), env) == Continue(js, ev)
    ensures js == if Launches(tokens, env) then AddJob(jobs, env.fork, tokens[1]) else jobs
    ensures CountTerminated(ev) == 0
  {
    var c := Classify(tokens);
    if c.Bg? && c.argv != [] {
      assert tokens[1] == c.argv[0];
    }
  }

  /** A reaping pass leaves only unterminated jobs, announces every removed one,
      and keeps the label fields intact. */
  lemma ReapFacts(js: seq<Job>, done: set<int>)
    ensures forall x :: x in Survivors(js, done) ==> x.pid !in done
    ensures |Survivors(js, done)| + CountTerminated(Printed(Announce(Reported(js, done)))) == |js|
    ensures WellFormed(js) ==> WellFormed(Survivors(js, done))
  {
    var kept := Survivors(js, done);
    forall x | x in kept
      ensures x.pid !in done && x in js
    {
      ReapMembers(js, done, x);
    }
    CountAnnounced(Reported(js, done));
    ReapPartitions(js, done);
    if WellFormed(js) {
      forall k | 0 <= k < |kept|
        ensures |kept[k].command| == LabelSize && kept[k].command[LabelSize - 1] == NUL
      {
        assert kept[k] in js;
      }
    }
  }

  lemma {:induction false} CountTerminatedAppend(a: seq<Event>, b: seq<Event>)
    ensures CountTerminated(a + b) == CountTerminated(a) + CountTerminated(b)
  {
    if a == [] {
      assert a + b == b;
    } else {
      assert (a + b)[1..] == a[1..] + b;
      CountTerminatedAppend(a[1..], b);
    }
  }

  /** Each removed job is announced by exactly one "has terminated" line. */
  lemma {:induction false} CountAnnounced(gone: seq<Job>)
    ensures CountTerminated(Printed(Announce(gone))) == |gone|
  {
    if gone != [] {
      CountAnnounced(gone[1..]);
      var lines := Announce(gone);
      assert lines == [lines[0]] + Announce(gone[1..]);
      assert Printed(lines)[1..] == Printed(Announce(gone[1..]));
    }
  }

  /** The announcement of removed jobs is read back, line for line, as the
      "has terminated" lines of the output. */
  lemma {:induction false} TerminationsAnnounced(gone: seq<Job>)
    ensures Terminations(Printed(Announce(gone))) == Announce(gone)
  {
    if gone != [] {
      TerminationsAnnounced(gone[1..]);
      var lines := Announce(gone);
      assert lines == [lines[0]] + Announce(gone[1..]);
      assert Printed(lines)[1..] == Printed(Announce(gone[1..]));
    }
  }

  lemma {:induction false} TerminationsAppend(a: seq<Event>, b: seq<Event>)
    ensures Terminations(a + b) == Terminations(a) + Terminations(b)
  {
    if a == [] {
      assert a + b == b;
    } else {
      assert (a + b)[1..] == a[1..] + b;
      TerminationsAppend(a[1..], b);
    }
  }

  /** bglist prints no "has terminated" line. */
  lemma NoTerminatedInListing(jobs: seq<Job>)
    ensures Terminations(Printed(Listing(jobs))) == []
  {
    var lines := Listing(jobs);
    NoTerminated(lines);
  }

  lemma {:induction false} NoTerminated(lines: seq<Report>)
    requires forall k :: 0 <= k < |lines| ==> !lines[k].Terminated?
    ensures Terminations(Printed(lines)) == []
  {
    if lines != [] {
      NoTerminated(lines[1..]);
      assert Printed(lines)[1..] == Printed(lines[1..]);
    }
  }

  /** `bg` with no program reports the usage error, launches nothing and leaves
      the registry to the reaping pass alone. */
  lemma BgWithoutProgram(jobs: seq<Job>, input: seq<char>, env: Env)
    requires Tokenize(input) == ["bg"]
    ensures Iterate(jobs, input, env) == Continue(Survivors(jobs, env.done),
      [Error(NoCommandGiven)] + Printed(Announce(Reported(jobs, env.done))))
  {
  }

  /** An empty line still ends with a reaping pass. */
  lemma BlankLineReaps(jobs: seq<Job>, input: seq<char>, env: Env)
    requires Tokenize(input) == []
    ensures Iterate(jobs, input, env) == Continue(Survivors(jobs, env.done),
      Printed(Announce(Reported(jobs, env.done))))
  {
    assert [] + Printed(Announce(Reported(jobs, env.done))) == Printed(Announce(Reported(jobs, env.done)));
  }

  // ---------------------------------------------------------------------------
  // A session: the loop of main run over several lines.
  // ---------------------------------------------------------------------------

  /** One line of input together with what the system calls return for it. */
  datatype Turn = Turn(input: seq<char>, env: Env)

  /** A line whose first token is `exit`. */
  predicate ExitLine(t: Turn) {
    Tokenize(t.input) != [] && Tokenize(t.input)[0] == "exit"
  }

  /** A line on which this process forks and fork returns 0. */
  predicate ChildLine(t: Turn) {
    Forks(Tokenize(t.input)) && t.env.fork == 0
  }

  /** The loop of main over `turns`, starting from registry `jobs`. It leaves
      the loop only on an `exit` line and turns into a child only on a line
      whose fork returned 0; with neither, it runs through every line. */
  function Session(jobs: seq<Job>, turns: seq<Turn>): (r: Outcome)
    ensures r.Exited? ==> exists k :: 0 <= k < |turns| && ExitLine(turns[k])
    ensures r.ChildExec? ==> exists k :: 0 <= k < |turns| && ChildLine(turns[k])
    ensures (forall k :: 0 <= k < |turns| ==> !ExitLine(turns[k]) && !ChildLine(turns[k])) ==> r.Continue?
    decreases |turns|
  {
    if turns == [] then Continue(jobs, [])
    else
      match Iterate(jobs, turns[0].input, turns[0].env)
      case Continue(js, ev) =>
        var later := turns[1..];
        assert forall k :: 0 <= k < |later| ==> later[k] == turns[k + 1];
        (match Session(js, later)
         case Continue(js2, ev2) => Continue(js2, ev + ev2)
         case other => other)
      case other => other
  }

  /** How many of the turns launch a background job. */
  function LaunchCount(turns: seq<Turn>): nat {
    if turns == [] then 0
    else (if Launches(Tokenize(turns[0].input), turns[0].env) then 1 else 0) + LaunchCount(turns[1..])
  }

  /** The record a line appends to the registry: the one `bg prog` adds when
      its fork succeeds, and none otherwise. */
  function NewJobs(input: seq<char>, env: Env): seq<Job> {
    if Launches(Tokenize(input), env) then [Job(env.fork, StoreLabel(Tokenize(input)[1]))] else []
  }

  /** The records the turns append, in launch order. */
  function Launched(turns: seq<Turn>): (launched: seq<Job>)
    ensures |launched| == LaunchCount(turns)
  {
    if turns == [] then []
    else NewJobs(turns[0].input, turns[0].env) + Launched(turns[1..])
  }

  /** One iteration neither loses nor invents a job: as announcement lines, the
      registry it leaves plus the terminations it prints are exactly the
      registry it started from plus the job it launched. */
  lemma IterateConserves(jobs: seq<Job>, input: seq<char>, env: Env)
    requires Iterate(jobs, input, env).Continue?
    ensures var r := Iterate(jobs, input, env);
      multiset(Announce(r.jobs)) + multiset(Terminations(r.events))
        == multiset(Announce(jobs)) + multiset(Announce(NewJobs(input, env)))
  {
    var tokens := Tokenize(input);
    var d := Dispatch(jobs, Classify(tokens), env);
    assert d.Continue?;
    var js, ev := d.jobs, d.events;
    DispatchEffect(jobs, tokens, env, js, ev);
    assert js == jobs + NewJobs(input, env);
    var lines := Printed(Announce(Reported(js, env.done)));
    var r := Iterate(jobs, input, env);
    assert r == Continue(Survivors(js, env.done), ev + lines);
    TerminationsAppend(ev, lines);
    TerminationsAnnounced(Reported(js, env.done));
    assert Terminations(r.events) == Announce(Reported(js, env.done));
    ReapAnnouncesPartition(js, env.done);
    AnnounceAppend(jobs, NewJobs(input, env));
  }

  /** Over any run of the loop, the registry holds exactly the jobs it started
      with and those launched, less those announced as terminated: as
      announcement lines, what is left plus what was announced is what was
      there plus what was launched. */
  lemma {:induction false} SessionConserves(jobs: seq<Job>, turns: seq<Turn>)
    requires Session(jobs, turns).Continue?
    ensures multiset(Announce(Session(jobs, turns).jobs)) + multiset(Terminations(Session(jobs, turns).events))
      == multiset(Announce(jobs)) + multiset(Announce(Launched(turns)))
    decreases |turns|
  {
    if turns != [] {
      var t := turns[0];
      var r := Iterate(jobs, t.input, t.env);
      assert r.Continue?;
      var rest := Session(r.jobs, turns[1..]);
      assert rest.Continue?;
      assert Session(jobs, turns) == Continue(rest.jobs, r.events + rest.events);
      SessionConserves(r.jobs, turns[1..]);
      IterateConserves(jobs, t.input, t.env);
      TerminationsAppend(r.events, rest.events);
      var added, later := NewJobs(t.input, t.env), Launched(turns[1..]);
      assert Launched(turns) == added + later;
      AnnounceAppend(added, later);
      var left, here, there := multiset(Announce(rest.jobs)), multiset(Terminations(r.events)), multiset(Terminations(rest.events));
      var mid, start, one, others :=
        multiset(Announce(r.jobs)), multiset(Announce(jobs)), multiset(Announce(added)), multiset(Announce(later));
      assert left + there == mid + others;
      assert mid + here == start + one;
      assert multiset(Announce(Session(jobs, turns).jobs)) == left;
      assert multiset(Terminations(Session(jobs, turns).events)) == here + there;
      assert multiset(Announce(Launched(turns))) == one + others;
      Rebalance(left, here, there, mid, start, one, others);
    } else {
      assert Launched(turns) == [];
    }
  }

  /** A line that neither leaves the loop nor turns this process into the
      child: after it the loop reads the next line. */
  predicate Ordinary(t: Turn) {
    !ExitLine(t) && !ChildLine(t)
  }

  /** The position of the first line that stops the loop, or the number of
      lines when none does. */
  function FirstStop(turns: seq<Turn>): (k: nat)
    ensures k <= |turns|
    ensures forall m :: 0 <= m < k ==> Ordinary(turns[m])
    ensures k < |turns| ==> !Ordinary(turns[k])
  {
    if turns == [] || !Ordinary(turns[0]) then 0
    else 1 + FirstStop(turns[1..])
  }

  /** After an ordinary first line the loop goes on from the registry that
      line left: it continues, or stops, as the rest of the run does. */
  lemma PassOrdinary(jobs: seq<Job>, turns: seq<Turn>)
    requires turns != [] && Ordinary(turns[0])
    ensures Iterate(jobs, turns[0].input, turns[0].env).Continue?
    ensures var rest := Session(Iterate(jobs, turns[0].input, turns[0].env).jobs, turns[1..]);
      && (rest.Continue? <==> Session(jobs, turns).Continue?)
      && (rest.Continue? ==> Session(jobs, turns).jobs == rest.jobs)
      && (!rest.Continue? ==> Session(jobs, turns) == rest)
  {
  }

  /** The loop processes every line before the first stopping one, and that
      line's iteration, from the registry the earlier lines left, is the
      outcome of the whole run: nothing after it is read. */
  lemma {:induction false} SessionStopsAt(jobs: seq<Job>, turns: seq<Turn>)
    ensures Session(jobs, turns[..FirstStop(turns)]).Continue?
    ensures var k := FirstStop(turns);
      k < |turns| ==>
        Session(jobs, turns) == Iterate(Session(jobs, turns[..k]).jobs, turns[k].input, turns[k].env)
    decreases |turns|
  {
    var k := FirstStop(turns);
    var before := turns[..k];
    if turns != [] && Ordinary(turns[0]) {
      var t := turns[0];
      var later := turns[1..];
      PassOrdinary(jobs, turns);
      var r := Iterate(jobs, t.input, t.env);
      SessionStopsAt(r.jobs, later);
      assert k == 1 + FirstStop(later);
      PrefixTail(turns, k);
      PassOrdinary(jobs, before);
      if k < |turns| {
        assert later[k - 1] == turns[k];
      }
    } else {
      assert before == [];
    }
  }

  lemma PrefixTail<T>(s: seq<T>, k: nat)
    requires 1 <= k <= |s|
    ensures s[..k] != [] && s[..k][0] == s[0] && s[..k][1..] == s[1..][..k - 1]
  {
  }

  /** The loop ends on `exit` exactly when the first line that stops it is an
      `exit` line. */
  lemma SessionExits(jobs: seq<Job>, turns: seq<Turn>)
    ensures Session(jobs, turns).Exited? <==>
      FirstStop(turns) < |turns| && ExitLine(turns[FirstStop(turns)])
  {
    SessionStopsAt(jobs, turns);
  }

  /** This process becomes the exec'ing child exactly when the first line that
      stops the loop is one whose fork returned 0. */
  lemma SessionForks(jobs: seq<Job>, turns: seq<Turn>)
    ensures Session(jobs, turns).ChildExec? <==>
      FirstStop(turns) < |turns| && ChildLine(turns[FirstStop(turns)])
  {
    SessionStopsAt(jobs, turns);
  }

  /** One iteration keeps the registry in order: what it leaves is the old
      registry followed by the job it launched, with some records left out. */
  lemma IterateKeepsOrder(jobs: seq<Job>, input: seq<char>, env: Env)
    requires Iterate(jobs, input, env).Continue?
    ensures Subseq(Iterate(jobs, input, env).jobs, jobs + NewJobs(input, env))
  {
    var grown := jobs + NewJobs(input, env);
    if Launches(Tokenize(input), env) {
      assert AddJob(jobs, env.fork, Tokenize(input)[1]) == grown;
    } else {
      assert jobs == grown;
    }
    SurvivorsSubseq(grown, env.done);
  }

  /** Over any run of the loop the registry keeps launch order: it is the
      starting registry followed by the launched jobs, in the order launched,
      with the terminated ones left out. So a job launched before another and
      still running is listed before it. */
  lemma {:induction false} SessionKeepsOrder(jobs: seq<Job>, turns: seq<Turn>)
    requires Session(jobs, turns).Continue?
    ensures Subseq(Session(jobs, turns).jobs, jobs + Launched(turns))
    decreases |turns|
  {
    if turns == [] {
      assert jobs + Launched(turns) == jobs;
      SubseqRefl(jobs);
    } else {
      var t := turns[0];
      var r := Iterate(jobs, t.input, t.env);
      assert r.Continue?;
      var rest := Session(r.jobs, turns[1..]);
      assert rest.Continue?;
      assert Session(jobs, turns).jobs == rest.jobs;
      var added, later := NewJobs(t.input, t.env), Launched(turns[1..]);
      assert Launched(turns) == added + later;
      SessionKeepsOrder(r.jobs, turns[1..]);
      IterateKeepsOrder(jobs, t.input, t.env);
      OrderStep(rest.jobs, r.jobs, jobs, added, later);
    }
  }

  lemma OrderStep<T>(final: seq<T>, mid: seq<T>, start: seq<T>, added: seq<T>, later: seq<T>)
    requires Subseq(final, mid + later) && Subseq(mid, start + added)
    ensures Subseq(final, start + (added + later))
  {
    SubseqAppend(mid, start + added, later);
    assert (start + added) + later == start + (added + later);
    SubseqTrans(final, mid + later, start + (added + later));
  }

  lemma Rebalance<T>(left: multiset<T>, here: multiset<T>, there: multiset<T>, mid: multiset<T>,
                     start: multiset<T>, one: multiset<T>, others: multiset<T>)
    requires left + there == mid + others && mid + here == start + one
    ensures left + (here + there) == start + (one + others)
  {
    calc {
      left + (here + there);
      (left + there) + here;
      (mid + others) + here;
      (mid + here) + others;
      (start + one) + others;
      start + (one + others);
    }
  }

  /** Over any run of the loop, the registry holds as many jobs as it started
      with plus those launched, less those announced as terminated. */
  lemma {:induction false} SessionAccounts(jobs: seq<Job>, turns: seq<Turn>)
    requires Session(jobs, turns).Continue?
    ensures |Session(jobs, turns).jobs| + CountTerminated(Session(jobs, turns).events)
      == |jobs| + LaunchCount(turns)
    decreases |turns|
  {
    if turns != [] {
      var r := Iterate(jobs, turns[0].input, turns[0].env);
      assert r.Continue?;
      var rest := Session(r.jobs, turns[1..]);
      assert rest.Continue?;
      assert Session(jobs, turns) == Continue(rest.jobs, r.events + rest.events);
      SessionAccounts(r.jobs, turns[1..]);
      CountTerminatedAppend(r.events, rest.events);
    }
  }

  /** After a run of the loop, no job left in the registry is one the last
      reaping pass saw terminated. */
  lemma {:induction false} SessionReaped(jobs: seq<Job>, turns: seq<Turn>)
    requires turns != [] && Session(jobs, turns).Continue?
    ensures forall x :: x in Session(jobs, turns).jobs ==> x.pid !in turns[|turns| - 1].env.done
    decreases |turns|
  {
    var last := turns[|turns| - 1].env.done;
    var r := Iterate(jobs, turns[0].input, turns[0].env);
    assert r.Continue?;
    var rest := Session(r.jobs, turns[1..]);
    assert rest.Continue?;
    var final := Session(jobs, turns).jobs;
    assert final == rest.jobs;
    if |turns| > 1 {
      SessionReaped(r.jobs, turns[1..]);
      assert turns[1..][|turns[1..]| - 1] == turns[|turns| - 1];
    } else {
      assert rest.jobs == r.jobs;
      assert last == turns[0].env.done;
      forall x | x in final
        ensures x.pid !in last
      {
        assert x in r.jobs;
      }
    }
  }

  /** Every label field in the registry stays a full, terminated buffer over
      any run of the loop. */
  lemma {:induction false} SessionWellFormed(jobs: seq<Job>, turns: seq<Turn>)
    requires WellFormed(jobs) && Session(jobs, turns).Continue?
    ensures WellFormed(Session(jobs, turns).jobs)
    decreases |turns|
  {
    if turns != [] {
      var r := Iterate(jobs, turns[0].input, turns[0].env);
      assert r.Continue?;
      var rest := Session(r.jobs, turns[1..]);
      assert rest.Continue?;
      assert Session(jobs, turns).jobs == rest.jobs;
      SessionWellFormed(r.jobs, turns[1..]);
    }
  }

  /** `bglist` prints each job on its own line and a total equal to the number
      of jobs launched in the session and not yet announced as terminated. */
  lemma BgListTotal(jobs: seq<Job>, turns: seq<Turn>, input: seq<char>, env: Env)
    requires Session(jobs, turns).Continue?
    requires Tokenize(input) == ["bglist"]
    ensures var s := Session(jobs, turns);
      var r := Iterate(s.jobs, input, env);
      && r.Continue?
      && r.events[..|s.jobs|] == Printed(ListedLines(s.jobs))
      && r.events[|s.jobs|] == Print(Total(|jobs| + LaunchCount(turns) - CountTerminated(s.events)))
  {
    var s := Session(jobs, turns);
    SessionAccounts(jobs, turns);
    BgListEvents(s.jobs, input, env);
  }

  /** `bglist` starts its output with the listing of the registry it is given. */
  lemma BgListEvents(js: seq<Job>, input: seq<char>, env: Env)
    requires Tokenize(input) == ["bglist"]
    ensures var r := Iterate(js, input, env);
      && r.Continue?
      && r.events[..|js|] == Printed(ListedLines(js))
      && r.events[|js|] == Print(Total(|js|))
  {
    var ev := Printed(Listing(js));
    BgListDispatch(js, input, env);
    IterateContinues(js, input, env, js, ev);
    ListingPrefix(js, Printed(Announce(Reported(js, env.done))));
  }

  lemma BgListDispatch(js: seq<Job>, input: seq<char>, env: Env)
    requires Tokenize(input) == ["bglist"]
    ensures Dispatch(js, Classify(Tokenize(input)), env) == Continue(js, Printed(Listing(js)))
  {
    assert Classify(Tokenize(input)) == BgList;
  }

  /** Whatever follows it, the printed listing opens with one line per job
      and then the total. */
  lemma ListingPrefix(js: seq<Job>, tail: seq<Event>)
    ensures var events := Printed(Listing(js)) + tail;
      && events[..|js|] == Printed(ListedLines(js))
      && events[|js|] == Print(Total(|js|))
  {
    var lines := Listing(js);
    var ev := Printed(lines);
    assert lines[|js|] == Total(|js|);
    assert lines[..|js|] == ListedLines(js);
    assert (ev + tail)[..|js|] == ev[..|js|];
    PrintedPrefix(lines, |js|);
  }

  lemma PrintedPrefix(lines: seq<Report>, n: nat)
    requires n <= |lines|
    ensures Printed(lines)[..n] == Printed(lines[..n])
  {
  }

  /** The lines of the scenario below are read as the expected tokens. */
  lemma LaunchTokens(line: seq<char>)
    requires line == "bg sleep 1"
    ensures Tokenize(line) == ["bg", "sleep", "1"]
  {
    var toks: seq<string> := ["bg", "sleep", "1"];
    assert Join(toks) == line by {
      assert Join(toks[2..]) == "1";
      assert Join(toks[1..]) == "sleep" + " " + "1";
    }
    TokenizeJoin(toks);
  }

  lemma ListTokens(line: seq<char>)
    requires line == "bglist"
    ensures Tokenize(line) == ["bglist"]
  {
    assert |line| == 6;
    assert line[0] == 'b' && line[1] == 'g' && line[2] == 'l' && line[3] == 'i' && line[4] == 's' && line[5] == 't';
    assert NoDelim(line) && NUL !in line;
    TokenizeJoin([line]);
  }

  /** `bg sleep 1` with a successful fork registers one job labelled "sleep"
      and prints nothing. */
  lemma LaunchSleep(input: seq<char>, env: Env) returns (job: Job)
    requires input == "bg sleep 1" && env.fork > 0 && env.done == {}
    ensures job.pid == env.fork && job.Label() == "sleep"
    ensures Iterate([], input, env) == Continue([job], [])
  {
    LaunchTokens(input);
    var name := Tokenize(input)[1];
    assert name == "sleep" && |name| == 5 && NUL !in name;
    job := Job(env.fork, StoreLabel(name));
    assert job.Label() == name;
    assert AddJob([], env.fork, name) == [job];
    LaunchDispatch([], input, env);
    IterateContinues([], input, env, [job], []);
    ReapNothing([job], env.done);
  }

  /** A launching line appends its job and prints nothing before the reap. */
  lemma LaunchDispatch(jobs: seq<Job>, input: seq<char>, env: Env)
    requires Launches(Tokenize(input), env)
    ensures Dispatch(jobs, Classify(Tokenize(input)), env)
      == Continue(AddJob(jobs, env.fork, Tokenize(input)[1]), [])
  {
    var c := Classify(Tokenize(input));
    assert c.Bg? && c.argv[0] == Tokenize(input)[1];
  }

  /** `bglist` over one running job lists it and prints total 1. */
  lemma ListOne(job: Job, input: seq<char>, env: Env)
    requires input == "bglist" && job.pid !in env.done
    ensures Iterate([job], input, env) == Continue([job], [Print(Listed(job.pid, job.Label())), Print(Total(1))])
  {
    ListTokens(input);
    var printed := [Print(Listed(job.pid, job.Label())), Print(Total(1))];
    ListingOne(job);
    assert Classify(Tokenize(input)) == BgList;
    assert Dispatch([job], BgList, env) == Continue([job], Printed(Listing([job])));
    ReapNothing([job], env.done);
    IterateContinues([job], input, env, [job], printed);
  }

  lemma ListingOne(job: Job)
    ensures Printed(Listing([job])) == [Print(Listed(job.pid, job.Label())), Print(Total(1))]
  {
    assert ListedLines([job]) == [Listed(job.pid, job.Label())];
  }

  /** A pass over jobs none of which terminated keeps them all and prints nothing. */
  lemma ReapNothing(jobs: seq<Job>, done: set<int>)
    requires forall k :: 0 <= k < |jobs| ==> jobs[k].pid !in done
    ensures Survivors(jobs, done) == jobs
    ensures Printed(Announce(Reported(jobs, done))) == []
  {
    if jobs != [] {
      ReapNothing(jobs[1..], done);
      assert jobs == [jobs[0]] + jobs[1..];
    }
  }

  /** An iteration that does not leave the loop is its branch followed by the
      reaping pass. */
  lemma IterateContinues(jobs: seq<Job>, input: seq<char>, env: Env, js: seq<Job>, ev: seq<Event>)
    requires Dispatch(jobs, Classify(Tokenize(input)), env) == Continue(js, ev)
    ensures Iterate(jobs, input, env) ==
      Continue(Survivors(js, env.done), ev + Printed(Announce(Reported(js, env.done))))
  {
  }

  /** Once its pid is reported terminated, the next line, even an empty one,
      announces the job and empties the registry. */
  lemma ReapOne(job: Job, input: seq<char>, env: Env)
    requires input == [] && job.pid in env.done
    ensures Iterate([job], input, env) == Continue([], [Print(Terminated(job.pid, job.Label()))])
  {
    assert Survivors([job], env.done) == [];
    assert Reported([job], env.done) == [job];
  }

  /** `bglist` over an empty registry prints total 0 and nothing else. */
  lemma ListNothing(input: seq<char>, env: Env)
    requires input == "bglist"
    ensures Iterate([], input, env) == Continue([], [Print(Total(0))])
  {
    ListTokens(input);
    assert Printed(Listing([])) == [Print(Total(0))];
    assert Dispatch([], Classify(Tokenize(input)), env) == Continue([], [Print(Total(0))]);
    IterateContinues([], input, env, [], [Print(Total(0))]);
    ReapNothing([], env.done);
  }
}

=== FILE: tokenizer.dfy ===
/** Turning the line fgets read into the argument vector: the newline is cut
    with strcspn, then strtok splits on the delimiter set " \n". */
module Tokenizer {

  import opened CStrings

  /** The strtok delimiter set " \n". */
  predicate IsDelim(c: char) {
    c == ' ' || c == '\n'
  }

  predicate NoDelim(w: string) {
    forall k :: 0 <= k < |w| ==> !IsDelim(w[k])
  }

  /** The text left in the input buffer after `input[strcspn(input, "\n")] = 0`:
      everything before the first newline or NUL. */
  function LineOf(input: seq<char>): (line: seq<char>)
    ensures line <= input
    ensures '\n' !in line && NUL !in line
    ensures |line| < |input| ==> input[|line|] == '\n' || input[|line|] == NUL
  {
    if input == [] || input[0] == '\n' || input[0] == NUL then []
    else [input[0]] + LineOf(input[1..])
  }

  /** The longest delimiter-free prefix of `s`: the token strtok returns when
      `s` starts with a non-delimiter. */
  function Word(s: string): (w: string)
    ensures w <= s && NoDelim(w)
    ensures |w| < |s| ==> IsDelim(s[|w|])
  {
    if s == [] || IsDelim(s[0]) then [] else [s[0]] + Word(s[1..])
  }

  /** Repeated strtok calls: skip delimiters, take a maximal run of
      non-delimiters, go on after it. Every token is non-empty, holds no
      delimiter, and every character of it comes from `s`. */
  function Split(s: string): (toks: seq<string>)
    ensures forall k :: 0 <= k < |toks| ==> toks[k] != [] && NoDelim(toks[k])
    ensures forall k, i :: 0 <= k < |toks| && 0 <= i < |toks[k]| ==> toks[k][i] in s
    decreases |s|
  {
    if s == [] then []
    else if IsDelim(s[0]) then Split(s[1..])
    else
      var w := Word(s);
      [w] + Split(s[|w|..])
  }

  /** The argument vector `args[0..i)` main builds from the bytes fgets read:
      non-empty tokens that hold no space, newline or NUL. */
  function Tokenize(input: seq<char>): (args: seq<string>)
    ensures forall k :: 0 <= k < |args| ==> args[k] != [] && NoDelim(args[k]) && NUL !in args[k]
  {
    Split(LineOf(input))
  }

  /** The tokens written back with one space between them. */
  function Join(toks: seq<string>): string {
    if toks == [] then [] else if |toks| == 1 then toks[0] else toks[0] + " " + Join(toks[1..])
  }

  /** `s` without its delimiter characters. */
  function Squeeze(s: string): string {
    if s == [] then [] else (if IsDelim(s[0]) then [] else [s[0]]) + Squeeze(s[1..])
  }

  /** The tokens written one after another. */
  function Concat(toks: seq<string>): string {
    if toks == [] then [] else toks[0] + Concat(toks[1..])
  }

  lemma {:induction false} WordOfPrefix(w: string, rest: string)
    requires NoDelim(w)
    requires rest == [] || IsDelim(rest[0])
    ensures Word(w + rest) == w
  {
    if w != [] {
      assert (w + rest)[1..] == w[1..] + rest;
      WordOfPrefix(w[1..], rest);
    }
  }

  /** A token followed by a delimiter (or the end) splits off as itself. */
  lemma SplitWord(w: string, rest: string)
    requires w != [] && NoDelim(w)
    requires rest == [] || IsDelim(rest[0])
    ensures Split(w + rest) == [w] + Split(rest)
  {
    WordOfPrefix(w, rest);
    assert (w + rest)[|w|..] == rest;
  }

  /** Every character of `d` is a delimiter. */
  predicate AllDelim(d: string) {
    forall k :: 0 <= k < |d| ==> IsDelim(d[k])
  }

  /** strtok skips any run of delimiters before a token, however long: a
      line that starts with delimiters splits as the rest of it does. With
      SplitWord and the empty line this fixes Split on every line. */
  lemma {:induction false} SplitSkips(d: string, s: string)
    requires AllDelim(d)
    ensures Split(d + s) == Split(s)
    decreases |d|
  {
    if d != [] {
      assert (d + s)[0] == d[0] && (d + s)[1..] == d[1..] + s;
      SplitSkips(d[1..], s);
    } else {
      assert d + s == s;
    }
  }

  /** Splitting a line built from well-formed tokens gives back those tokens. */
  lemma {:induction false} SplitJoin(toks: seq<string>)
    requires forall k :: 0 <= k < |toks| ==> toks[k] != [] && NoDelim(toks[k])
    ensures Split(Join(toks)) == toks
  {
    if |toks| == 1 {
      SplitWord(toks[0], []);
      assert toks[0] + [] == toks[0];
      assert Join(toks) == toks[0];
      assert Split([]) == [];
    } else if |toks| > 1 {
      var tail := Join(toks[1..]);
      var rest := " " + tail;
      assert Join(toks) == toks[0] + rest;
      SplitWord(toks[0], rest);
      assert rest[1..] == tail;
      assert Split(rest) == Split(tail);
      SplitJoin(toks[1..]);
      assert toks == [toks[0]] + toks[1..];
    }
  }

  lemma {:induction false} SqueezeAppend(a: string, b: string)
    ensures Squeeze(a + b) == Squeeze(a) + Squeeze(b)
  {
    if a != [] {
      assert (a + b)[1..] == a[1..] + b;
      SqueezeAppend(a[1..], b);
    } else {
      assert a + b == b;
    }
  }

  lemma {:induction false} SqueezeWord(w: string)
    requires NoDelim(w)
    ensures Squeeze(w) == w
  {
    if w != [] {
      SqueezeWord(w[1..]);
    }
  }

  /** No character other than a delimiter is lost or added: the tokens, put
      together, are exactly the line's non-delimiter characters in order. */
  lemma {:induction false} SplitKeepsText(s: string)
    ensures Concat(Split(s)) == Squeeze(s)
    decreases |s|
  {
    if s != [] {
      if IsDelim(s[0]) {
        SplitKeepsText(s[1..]);
      } else {
        var w := Word(s);
        var rest := s[|w|..];
        assert s == w + rest;
        SplitKeepsText(rest);
        SqueezeAppend(w, rest);
        SqueezeWord(w);
        assert ([w] + Split(rest))[1..] == Split(rest);
      }
    }
  }

  /** A line holding no newline and no NUL is left whole by the newline cut. */
  lemma LineOfPlain(s: seq<char>)
    requires '\n' !in s && NUL !in s
    ensures LineOf(s) == s
  {
  }

  lemma {:induction false} JoinChars(toks: seq<string>, c: char)
    requires c != ' '
    requires forall k :: 0 <= k < |toks| ==> c !in toks[k]
    ensures c !in Join(toks)
  {
    if |toks| > 1 {
      JoinChars(toks[1..], c);
    }
  }

  /** Reading back a line typed as tokens separated by single spaces gives
      exactly those tokens as the argument vector. */
  lemma TokenizeJoin(toks: seq<string>)
    requires forall k :: 0 <= k < |toks| ==> toks[k] != [] && NoDelim(toks[k]) && NUL !in toks[k]
    ensures Tokenize(Join(toks)) == toks
  {
    JoinChars(toks, '\n');
    JoinChars(toks, NUL);
    LineOfPlain(Join(toks));
    SplitJoin(toks);
  }
}

=== FILE: wrappers.dfy ===
/** Optional values: a C pointer that may be NULL (getenv), or an argument that may be absent. */
module Wrappers {

  datatype Option<+T> = None | Some(value: T)
}
